=== FILE: README.md ===
# CalSnap client state and settings — a Dafny model

CalSnap is a personal nutrition tracker: the user uploads a food photo, gets an
estimated nutritional breakdown, saves it as a meal for a date and meal type,
and reviews a daily summary and the list of meals for a day. This project
models the sequential logic of that system:

- the **capture/save controller** (`Upload`): picking a file, analysing it,
  building the save request and settling the save, as pure transitions on the
  component's state record;
- the **coordinator** (`App`): the active tab, the one view it mounts, and the
  refresh counter bumped once per saved meal;
- the **summary and history views** (`Feed`, `Dashboard`, `History`): the shared
  fetch-and-apply machine behind both (re-fetch when `(selectedDate,
  refreshToken)` changes, apply any parsed body, keep the old data on failure,
  clear `loading` either way) and each view's render decisions;
- the **settings loader** (`Config`, with `Text`): `_parse_bool`, the CORS origin
  split/strip/filter and the fallbacks of `load_settings`;
- a **session** (`Session`) that puts the coordinator and the mounted view
  together, so that the counter can be related to the meals actually saved.

Every remote call is an outcome parameter: analysis and fetches are a `JsValue.Reply`, `Parsed(json)`
or `Failed`; a save is `Ok`, `NotOk` or `Threw`. Parsed JSON is the datatype
`JsValue.Json`, with JavaScript truthiness and property access written out, so
guards such as `if (!result) return` and `summary ? … : null` keep their meaning
for every payload, not only well-formed ones. The asynchronous handlers are split
at their `await` into a `Begin…` function (what is sent, and the in-flight state)
and a `Settle…` function (the state after the response). The current UTC
date enters as a `today` parameter; the process environment as a map from names
to values.

Some behaviours of the code are easy to expect otherwise; the model states
them as the code has them:

- The summary and history views have no guard against stale responses: a
  response is applied whenever it arrives, so a slow answer for an earlier date
  can overwrite a newer one (`Feed.LateResponseOverwrites`), and the first
  answer clears `loading` while another request is still out
  (`Feed.FirstResponseEndsLoading`). No race-safety property is claimed.
- `handleAnalyze`, `fetchSummary` and `fetchMeals` never look at the response
  status: an error response with a JSON body becomes the analysis result, the
  summary or the meal list. Only a rejected `fetch` or a non-JSON body counts as
  a failure.
- The empty-day message of the summary is shown below the four-card grid, not
  instead of it (`Dashboard.NoMealsShowsGridAndMessage`).
- A new analysis may start from the analysed state, since the file is kept;
  a parsed but falsy analysis body (`null`, `0`, `""`, `false`) leaves the
  controller with a file and no result (`Upload.NextPhase`).
- Only one view is mounted at a time, so leaving a tab discards that view's
  state and a feed view always fetches when it is opened
  (`Session.LeavingUploadDiscardsIt`, `Session.OpeningFeedTabFetches`).

## Model

| member | source | states |
|---|---|---|
| JsValue.Truthy | frontend/src/components/Upload.jsx:39 | a parsed value is falsy exactly when it is `null`, `false`, `0` or `""` |
| JsValue.Prop | frontend/src/components/Upload.jsx:51-55 | a property read finds a value exactly for a key the object itself holds, and that value; anything else is undefined |
| Upload.Mount | frontend/src/components/Upload.jsx:4-9 | the controller starts at rest with nothing picked, today's date and "breakfast" |
| Upload.SelectDate | frontend/src/components/Upload.jsx:138 | the date input sets the date and nothing else, so the phase is kept |
| Upload.SelectMealType | frontend/src/components/Upload.jsx:146 | the meal type select sets the type and nothing else, so the phase is kept |
| Upload.SelectFile | frontend/src/components/Upload.jsx:11-14 | the picked file (possibly none) replaces the old one and the result is cleared whatever it was; nothing else changes |
| Upload.BeginAnalyze | frontend/src/components/Upload.jsx:16-27 | nothing is sent and nothing changes without a file; otherwise exactly the current file is sent and only `analyzing` becomes true |
| Upload.SettleAnalyze | frontend/src/components/Upload.jsx:28-35 | any parsed body becomes the result, a failure keeps the old result; the file is kept and `analyzing` ends false on both paths |
| Upload.Analyze | frontend/src/components/Upload.jsx:16-36 | without a file nothing happens; with one, a parsed body becomes the result and a failure keeps the old one, the file is kept and `analyzing` ends false |
| Upload.RequestBody | frontend/src/components/Upload.jsx:48-56 | the body holds the date and meal type, and exactly those of food/calories/protein/carbs/fat the result defines, each copied verbatim; no other key |
| Upload.RequestBodyCopiesEstimate | frontend/src/components/Upload.jsx:48-56 | reading the five analysis fields back from the sent body gives the result's own values; `confidence` is absent |
| Upload.BeginSave | frontend/src/components/Upload.jsx:38-57 | nothing is sent unless the result is truthy; otherwise the sent body is built from the current date, meal type and result and only `saving` becomes true |
| Upload.SettleSave | frontend/src/components/Upload.jsx:59-74 | OK clears file and result and notifies once when the callback exists; not-OK or thrown keeps file and result and notifies never; `saving` ends false; date and meal type are kept |
| Upload.Save | frontend/src/components/Upload.jsx:38-75 | without a truthy result nothing happens; an OK save clears file and result and notifies once when the callback exists; any other outcome keeps both and never notifies; `saving` ends false |
| Upload.Step | frontend/src/components/Upload.jsx:11-75 | one user event notifies at most once, and exactly when it is a save that sends and gets OK with the callback present; only the matching inputs change date and meal type |
| Upload.StepKeepsAtRest | frontend/src/components/Upload.jsx:11-75 | when each request completes before the next event, every event leaves nothing in flight and no result without a file |
| Upload.ReplayKeepsAtRest | frontend/src/components/Upload.jsx:3-75 | when each request completes before the next event, every state reached from an at-rest state is at rest |
| Upload.NoCallbackNoNotice | frontend/src/components/Upload.jsx:63-65 | without `onMealSaved` no event sequence produces a notification |
| Upload.StepFollowsPhaseMachine | frontend/src/components/Upload.jsx:11-75 | each event moves the controller between Idle, FileSelected and Analyzed exactly as the phase machine `NextPhase` says |
| Upload.InFlightPhases | frontend/src/components/Upload.jsx:19-41 | a started analysis is in the Analyzing phase and a sent save in the Saving phase |
| Upload.LateAnalysisLandsOnNewFile | frontend/src/components/Upload.jsx:11-29 | an analysis answered after another file was picked is shown with the new file |
| Upload.DismissedPickerKeepsLateAnalysis | frontend/src/components/Upload.jsx:11-35 | an analysis answered after the picker was dismissed is shown with no file, leaving the controller out of its at-rest shape |
| Upload.GrilledChickenBody | frontend/src/components/Upload.jsx:48-56 | for the grilled-chicken estimate the body posted holds the date, the meal type and the five fields, and no `confidence` |
| Upload.CaptureAndSave | frontend/src/components/Upload.jsx:11-65 | pick, analyse, choose 2024-03-01 and lunch, save: the body posted is the one built from those choices and the estimate, and an OK save returns to the mount state with those choices and one notification |
| App.Init | frontend/src/App.jsx:8-11 | on launch only the upload view is mounted and the counter is 0 |
| App.MealSaved | frontend/src/App.jsx:18-20 | the counter rises by exactly one and the tab is kept |
| App.ClickTab | frontend/src/App.jsx:31-48 | a tab button selects exactly its own tab name and leaves the counter alone |
| App.MountedViews | frontend/src/App.jsx:51-55 | for every active tab exactly one view is mounted, the matching one; only the upload view gets the save callback, the others get the current counter |
| App.RunCountsSaves | frontend/src/App.jsx:18-48 | over any event sequence the counter grows by exactly the number of save notifications; tab clicks add nothing |
| App.CounterIsSaveCount | frontend/src/App.jsx:11-20 | starting from 0, the counter equals the number of saves so far |
| App.CounterMonotone | frontend/src/App.jsx:18-20 | later events never lower the counter, and raise it by the number of later saves |
| Feed.Mount | frontend/src/components/Dashboard.jsx:4-6 | a fresh view holds today's date and its initial data, is not loading and has seen no render yet |
| Feed.SelectDate | frontend/src/components/History.jsx:44 | the date input sets the date and nothing else |
| Dashboard.MountSummary | frontend/src/components/Dashboard.jsx:4-6 | the summary view mounts on today's date with a `null` summary, not loading, having seen no render |
| History.MountHistory | frontend/src/components/History.jsx:4-6 | the history view mounts on today's date with an empty meal list, not loading, having seen no render |
| Feed.Render | frontend/src/components/Dashboard.jsx:8-15 | a GET is sent exactly when `(selectedDate, refreshToken)` differs from the last render's (always on the first), for the selected date, with `loading` set; otherwise nothing changes |
| Feed.Settle | frontend/src/components/Dashboard.jsx:16-22 | a parsed body replaces the data, a failure keeps it; `loading` ends false on both paths |
| Feed.RenderAgainSendsNothing | frontend/src/components/History.jsx:8-10 | a second render with unchanged inputs sends no request |
| Feed.MountFetches | frontend/src/components/History.jsx:3-10 | a freshly mounted view fetches its initial date on its first render |
| Feed.RequestsFollowChanges | frontend/src/components/Dashboard.jsx:8-10 | over any sequence of inputs, the GETs sent are exactly one per change of the pair, for the new date, in order |
| Feed.LateResponseOverwrites | frontend/src/components/Dashboard.jsx:12-22 | when requests for two dates are out and the earlier one answers last, its payload is what the view keeps, next to the newer date |
| Feed.FirstResponseEndsLoading | frontend/src/components/History.jsx:12-23 | the first response clears `loading` while a second request is still out |
| Dashboard.CountNoun | frontend/src/components/Dashboard.jsx:45 | the noun is "meal" exactly when the count is the number 1, else "meals" |
| Dashboard.SectionOf | frontend/src/components/Dashboard.jsx:42-88 | the section shows the payload's date and count as given and its four numeric totals; the empty message exactly when the count is 0 |
| Dashboard.View | frontend/src/components/Dashboard.jsx:39-90 | loading wins; else a falsy summary shows nothing; a truthy one shows its section exactly when all four totals are numbers and neither date nor count is an object (or an array holding one), and otherwise the render throws |
| Dashboard.ObjectDateCrashes | frontend/src/components/Dashboard.jsx:44 | an object-valued date makes the render throw even when every total is a number |
| Dashboard.NoMealsShowsGridAndMessage | frontend/src/components/Dashboard.jsx:45-88 | a zero count shows the message, the plural noun and the four totals grid together |
| Dashboard.MountedViewLoads | frontend/src/components/Dashboard.jsx:5-13 | on mount nothing is shown, and after the first render the loading text |
| Dashboard.FailedRefreshKeepsScreen | frontend/src/components/Dashboard.jsx:18-21 | a refresh whose request fails ends on the same screen as before it |
| Dashboard.RefreshShowsPayload | frontend/src/components/Dashboard.jsx:16-17 | a refresh that gets a truthy body with numeric totals and a renderable header shows that body's section |
| History.IconLookupAsWritten | frontend/src/components/History.jsx:25-33 | the four meal types get their letter; any other `Object.prototype` member name yields the inherited member, every remaining string 'M' |
| History.ConstructorMissesFallback | frontend/src/components/History.jsx:32 | "constructor" does not get the fallback 'M' |
| History.MealIcon | frontend/src/components/History.jsx:25-33 | breakfast, lunch, dinner, snack get B, L, D, S respectively, and exactly every other string gets 'M' |
| History.MealIconAgreesAwayFromPrototype | frontend/src/components/History.jsx:25-33 | the code and the corrected lookup agree on every string that is not a prototype member name |
| History.Capitalize | frontend/src/components/History.jsx:62 | same length; first character upper-cased; the rest identical |
| History.CapitalizeOnlyChangesCase | frontend/src/components/History.jsx:62 | the label equals the meal type up to letter case, and capitalizing twice is capitalizing once |
| History.CardOf | frontend/src/components/History.jsx:57-83 | a card exists exactly for an object with a string meal type; it carries that type's icon and label and the food and four amounts verbatim |
| History.CardsOf | frontend/src/components/History.jsx:56-84 | cards exist when every meal has one; then one card per meal, the i-th from the i-th meal |
| History.ListOf | frontend/src/components/History.jsx:52-86 | an array shows the message exactly when empty, otherwise its cards in received order; only an array is ever mapped |
| History.View | frontend/src/components/History.jsx:49-87 | loading wins over the list |
| History.RecordsRenderInOrder | frontend/src/components/History.jsx:53-84 | a list of meal records shows the message when empty and otherwise one card per record, in order, with that record's amounts |
| History.MountedListIsEmpty | frontend/src/components/History.jsx:5 | the initial meal list renders the empty-state message |
| History.FailedRefreshKeepsList | frontend/src/components/History.jsx:18-21 | a refresh whose request fails ends on the same list as before it |
| Session.Start | frontend/src/App.jsx:8-11 | on launch the upload tab shows a fresh capture view, the counter is 0 and no request is out |
| Session.MountScreen | frontend/src/App.jsx:52-54 | a freshly mounted view for the active tab matches it; the upload view starts from mount with no request out, and a feed view is loading with exactly one request out, for today with the current counter |
| Session.Next | frontend/src/App.jsx:31-55 | a tab click selects its tab and, unless it was already active, remounts exactly the fresh view `Session.MountScreen` gives under the next mount number; an upload input steps the mounted capture view as `Upload.Step` does; a feed response that lands settles into the mounted feed view and uses up one request, and any other feed response (another mount, or no request left) changes nothing |
| Session.NextStep | frontend/src/App.jsx:18-55 | each event keeps the mounted view matching the tab (with no request counted for the upload view) and raises the counter by one exactly when it saves a meal |
| Session.CounterCountsSavedMeals | frontend/src/App.jsx:18-20 | over any event sequence the counter grows by exactly the number of meals saved; failed saves, tab switches and fetches leave it |
| Session.CounterFromStart | frontend/src/App.jsx:11 | from launch the counter equals the number of meals saved |
| Session.LeavingUploadDiscardsIt | frontend/src/App.jsx:52 | leaving the upload tab and returning gives a freshly mounted upload view |
| Session.OpeningFeedTabFetches | frontend/src/App.jsx:53-54 | opening the summary or history tab from another tab starts exactly one fetch, for today, with the current counter |
| Session.ResponseAfterLeavingIsDropped | frontend/src/App.jsx:53-54 | a summary answer arriving after the switch to the history tab leaves the freshly mounted history view untouched |
| Session.OneAnswerPerRequest | frontend/src/components/Dashboard.jsx:8-22 | a freshly opened feed view applies one answer to its one request, and a repeat of that answer changes nothing |
| Config.GetEnv | backend/config.py:26 | the variable's value when it is set, else none |
| Config.GetEnvOr | backend/config.py:21 | the variable's value when it is set, even when empty, else the fallback |
| Text.Lower | backend/config.py:17 | same length, each character lower-cased (ASCII letters) in place |
| Config.ParseBool | backend/config.py:14-17 | a missing value gives the default; any value gives true exactly when it spells 1, true, yes or on in some letter case, whatever the default |
| Config.LowerInTrueWords | backend/config.py:17 | lower-casing lands in the accepted set exactly when the value matches an accepted word ignoring case |
| Config.ParseBoolIgnoresCase | backend/config.py:17 | values that differ only in letter case parse alike, under any defaults |
| Config.ParseBoolExamples | backend/config.py:17 | TRUE, Yes, oN, 1 are true; false, 0, empty and " true" are false, even with default true |
| Config.ParseOrigins | backend/config.py:21-24 | every origin is non-empty, unpadded and comma-free, and the origins are exactly the strips of the non-blank pieces between commas |
| Config.ParseOriginsAppend | backend/config.py:24 | a comma joins two origin lists: the parse of the whole is the parse of the left part followed by that of the right, so input order and repeats are kept |
| Config.ParseOriginsOfPiece | backend/config.py:24 | a value without a comma gives its strip as the one origin, or no origin when it is blank |
| Config.TwoOrigins | backend/config.py:24 | two clean origins joined by a comma give both, the first first, even when they are equal |
| Config.KeepStrippedKeepsOut | backend/config.py:24 | a character no piece holds appears in no kept origin |
| Config.KeepStripped | backend/config.py:24 | every kept origin is non-empty and stripped, and a string is kept exactly when it is the non-empty strip of some piece |
| Config.KeepStrippedAppend | backend/config.py:24 | the filter distributes over concatenation, so origins keep input order |
| Config.KeepStrippedOfClean | backend/config.py:24 | pieces already non-empty and stripped are all kept, in order |
| Config.ReparseOrigins | backend/config.py:24 | re-parsing the comma-join of the parsed origins gives the same list |
| Config.SingleOrigin | backend/config.py:21-24 | a comma-free stripped value is a one-origin list |
| Config.LoadSettings | backend/config.py:20-28 | each setting depends on its own variable only: a set database URL, model or API key is used as given, a set CORS value is parsed into origins, and each unset one takes its fallback; the analysis flag is on exactly when its variable is set to an accepted word |
| Config.LoadSettingsDefaults | backend/config.py:21-27 | each unset variable, whatever the others hold, gives its fallback: origins ["http://localhost:5173"], "sqlite:///./meals.db", "gpt-4.1-mini", no API key and the flag off |
| Config.EmptyCorsVariableAllowsNothing | backend/config.py:21-24 | a CORS variable set to the empty string yields no origin |
| Config.LoadedOriginsAreClean | backend/config.py:24 | the loaded origins are clean and survive join-and-reparse unchanged |
| Text.Split | backend/config.py:24 | `split(",")` yields at least one piece and no piece holds the separator |
| Text.JoinSplit | backend/config.py:24 | joining the pieces with the separator gives back the input |
| Text.SplitCons | backend/config.py:24 | a leading separator starts a new piece; any other character joins the first piece |
| Text.SplitAppend | backend/config.py:24 | splitting at a separator gives the pieces of the left part followed by those of the right |
| Text.SplitJoin | backend/config.py:24 | splitting a join of separator-free pieces gives back the pieces |
| Text.Strip | backend/config.py:24 | the result is the infix left after removing the longest whitespace prefix and suffix; it is empty exactly when the input is all whitespace |
| Text.StripStripped | backend/config.py:24 | a string without surrounding whitespace is left unchanged |
| Text.StripIdempotent | backend/config.py:24 | stripping twice is stripping once |
| Text.LowerEqualsIffSameIgnoringCase | backend/config.py:17 | two strings lower-case to the same string exactly when they agree character by character ignoring case |

## Findings

| source | as written | input that shows it | evidently intended | confidence | as-written member | corrected member |
|---|---|---|---|---|---|---|
| frontend/src/components/History.jsx:25-33 | the icon table is a plain object literal, so `icons[mealType]` also finds members inherited from `Object.prototype`, which are truthy and skip the `'M'` fallback | meal type "constructor" (also "toString", "valueOf", "__proto__", …) | every string other than the four meal types gets 'M' | high that the lookup misbehaves, low that the store ever sends such a meal type; not executed | History.IconLookupAsWritten | History.MealIcon |

The history cards (`History.CardOf`) use the corrected `History.MealIcon`.

## Left out

- HTTP itself: URLs, `FormData`, headers, and JSON text. A request is modelled as what it carries (the file, the date, the body's fields); JSON key order is not modelled.
- `alert` and `console.error`: they only inform the user and change no state.
- Number formatting: the digits `toFixed` prints in the summary grid (the model keeps the numeric totals and only records that `toFixed` throws on a non-number), and the confidence percentage of the analysis card. Amounts on the history cards are carried as the payload's raw values.
- How React renders a JSON value as text (numbers and strings are shown, `null` and booleans are not, an object throws): a card carries the raw value.
- The clock: the default dates are the `today` parameter, standing for the UTC calendar date that `toISOString().split('T')[0]` gives.
- Asynchrony: React's scheduling and batching, and arbitrary interleavings of in-flight requests on the capture view. `Upload.Step` runs each remote call to completion before the next event; a few lemmas compose `Begin…`/`Settle…` steps by hand to show specific interleavings. The feed views' requests do interleave in `Session.Next`: answers carry the mount they belong to, but which of one mount's requests an answer belongs to is not tracked, so its payload is a free parameter. In `Session` the counter only changes while the capture view is mounted, because its saves run to completion; in the code a save that settles after a tab switch bumps it while a feed view is shown, so the counter dependency of the feed views is exercised only by the `Feed` lemmas (`Feed.RequestsFollowChanges`).
- The disabled buttons that keep a second analysis or save from starting while one is in flight; they live in markup, not in the handlers.
- `key={meal.id}` and React's list reconciliation.
- Floating point: numbers are reals, with no NaN, infinities or negative zero. `JSON.parse` never yields NaN, but a literal too large for a double (such as `1e400`) parses to `Infinity`; no render decision changes, since `Infinity` is truthy, is not 1 or 0, and is accepted by `toFixed`.
- backend/main.py: a fixed-response endpoint and CORS middleware wiring, with no logic to model.
- The module-level `settings = load_settings()` call at import time: `Config.LoadSettings` takes the environment as a parameter.
- History.CardOf: builds each card's icon with the corrected `History.MealIcon`, not with `getMealIcon` as written; for a meal type that names an `Object.prototype` member the code puts the inherited member in the icon slot (`History.IconLookupAsWritten`), which the cards do not show. Its food and amounts are carried raw, so an object-valued `food` or amount, on which React throws, still gives a card. For the meal type `"__proto__"` the as-written lookup yields `Object.prototype` itself, an object, so React throws and the whole list fails to render; the other eleven names yield functions, which React renders as nothing.
- Text.Lower: maps ASCII letters only, whereas Python's `str.lower()` covers all of Unicode. The only non-ASCII characters Python lower-cases into ASCII are U+212A (to "k") and U+0130 (to "i" followed by a combining dot); neither yields one of the accepted words, so `Config.ParseBool` agrees with `_parse_bool` on every input.
- History.Capitalize: upper-cases ASCII letters only; JavaScript's `toUpperCase` covers all of Unicode and can lengthen a string ("ß" becomes "SS"), so the same-length promise holds only for ASCII first characters. `charAt` works on UTF-16 code units, which are not modelled.
- Text.Strip: follows `str.isspace` as CPython classifies characters; that list is written out, not derived from the Unicode database.

=== FILE: app.dfy ===
/**
 * The coordinator: the active tab and the refresh counter, the one signal
 * from the capture view to the other two.
 */
module App {

  /** The three tabs; `TabName` is the string the component stores and compares. */
  datatype Tab = UploadTab | DashboardTab | HistoryTab

  function TabName(t: Tab): string
  {
    match t
    case UploadTab => "upload"
    case DashboardTab => "dashboard"
    case HistoryTab => "history"
  }

  datatype AppState = AppState(activeTab: Tab, refreshToken: int)

  /** On launch the capture view is the one mounted, and no meal has been saved. */
  function Init(): (r: AppState)
    ensures MountedViews(r) == [UploadView]
    ensures r.refreshToken == 0
  {
    AppState(UploadTab, 0)
  }

  /** handleMealSaved: one more saved meal; the tab is not touched. */
  function MealSaved(s: AppState): (r: AppState)
    ensures r.refreshToken == s.refreshToken + 1
    ensures r.activeTab == s.activeTab
  {
    s.(refreshToken := s.refreshToken + 1)
  }

  /** A tab button: selects exactly its own tab; the counter is not touched. */
  function ClickTab(s: AppState, t: Tab): (r: AppState)
    ensures r.activeTab == t
    ensures r.refreshToken == s.refreshToken
  {
    s.(activeTab := t)
  }

  /** What `<main>` mounts. The upload view is handed `handleMealSaved`; the other two get the counter. */
  datatype View = UploadView | DashboardView(refreshToken: int) | HistoryView(refreshToken: int)

  /** The three `activeTab === name && <View/>` slots, in markup order. */
  function MountedViews(s: AppState): (views: seq<View>)
    ensures |views| == 1
    ensures views[0] == UploadView <==> s.activeTab == UploadTab
    ensures views[0] == DashboardView(s.refreshToken) <==> s.activeTab == DashboardTab
    ensures views[0] == HistoryView(s.refreshToken) <==> s.activeTab == HistoryTab
  {
    var name := TabName(s.activeTab);
    (if name == "upload" then [UploadView] else [])
    + (if name == "dashboard" then [DashboardView(s.refreshToken)] else [])
    + (if name == "history" then [HistoryView(s.refreshToken)] else [])
  }

  datatype AppEvent = Click(tab: Tab) | Saved

  function Run(s: AppState, events: seq<AppEvent>): AppState
    decreases |events|
  {
    if |events| == 0 then s
    else
      var next := match events[0] case Click(t) => ClickTab(s, t) case Saved => MealSaved(s);
      Run(next, events[1..])
  }

  function SaveCount(events: seq<AppEvent>): nat
    decreases |events|
  {
    if |events| == 0 then 0 else (if events[0].Saved? then 1 else 0) + SaveCount(events[1..])
  }

  /** The counter grows by exactly the number of save notifications; tab clicks add nothing. */
  lemma {:induction false} RunCountsSaves(s: AppState, events: seq<AppEvent>)
    ensures Run(s, events).refreshToken == s.refreshToken + SaveCount(events)
    decreases |events|
  {
    if |events| > 0 {
      var next := match events[0] case Click(t) => ClickTab(s, t) case Saved => MealSaved(s);
      RunCountsSaves(next, events[1..]);
    }
  }

  /** From the initial state the counter equals the number of saves so far. */
  lemma CounterIsSaveCount(events: seq<AppEvent>)
    ensures Run(Init(), events).refreshToken == SaveCount(events)
  {
    RunCountsSaves(Init(), events);
  }

  lemma {:induction false} SaveCountAppend(a: seq<AppEvent>, b: seq<AppEvent>)
    ensures SaveCount(a + b) == SaveCount(a) + SaveCount(b)
    decreases |a|
  {
    if |a| == 0 {
      assert a + b == b;
    } else {
      assert (a + b)[1..] == a[1..] + b;
      SaveCountAppend(a[1..], b);
    }
  }

  /** Later events never lower the counter, and each later save raises it. */
  lemma CounterMonotone(s: AppState, earlier: seq<AppEvent>, later: seq<AppEvent>)
    ensures Run(s, earlier + later).refreshToken == Run(s, earlier).refreshToken + SaveCount(later)
    ensures Run(s, earlier).refreshToken <= Run(s, earlier + later).refreshToken
  {
    RunCountsSaves(s, earlier + later);
    RunCountsSaves(s, earlier);
    SaveCountAppend(earlier, later);
  }
}

=== FILE: config.dfy ===
/**
 * The backend's settings loader: environment variables with fallbacks, a
 * boolean flag parser, and the comma-separated CORS origin list.
 */
module Config {

  import opened Maybe
  import opened Text

  /** The process environment: a name maps to its value exactly when the variable is set. */
  type Env = map<string, string>

  /** `os.getenv(name)`: the value, or None when unset. */
  function GetEnv(env: Env, name: string): (v: Option<string>)
    ensures v.Some? <==> name in env
    ensures v.Some? ==> v.value == env[name]
  {
    if name in env then Some(env[name]) else None
  }

  /** `os.getenv(name, fallback)`: a set variable wins even when its value is empty. */
  function GetEnvOr(env: Env, name: string, fallback: string): (v: string)
    ensures name in env ==> v == env[name]
    ensures name !in env ==> v == fallback
  {
    if name in env then env[name] else fallback
  }

  /** The spellings `_parse_bool` accepts, after lower-casing. */
  const TrueWords: set<string> := {"1", "true", "yes", "on"}

  lemma {:induction false} LowerInTrueWords(v: string)
    ensures Lower(v) in TrueWords <==> exists w :: w in TrueWords && SameIgnoringCase(v, w)
  {
    forall w | w in TrueWords
      ensures Lower(v) == w <==> SameIgnoringCase(v, w)
    {
      assert Lower(w) == w;
      LowerEqualsIffSameIgnoringCase(v, w);
    }
  }

  /**
   * `_parse_bool(value, default)`: the default for a missing value; otherwise
   * true exactly when the value spells one of the accepted words in any
   * letter case, whatever the default says.
   */
  function ParseBool(value: Option<string>, default: bool): (b: bool)
    ensures value.None? ==> b == default
    ensures value.Some? ==> (b <==> exists w :: w in TrueWords && SameIgnoringCase(value.value, w))
  {
    match value
    case None => default
    case Some(v) =>
      LowerInTrueWords(v);
      Lower(v) in TrueWords
  }

  /** Inputs that differ only in letter case parse alike, and the default plays no part. */
  lemma ParseBoolIgnoresCase(a: string, b: string, d1: bool, d2: bool)
    requires SameIgnoringCase(a, b)
    ensures ParseBool(Some(a), d1) == ParseBool(Some(b), d2)
  {
    LowerEqualsIffSameIgnoringCase(a, b);
  }

  lemma ParseBoolExamples()
    ensures ParseBool(Some("TRUE"), false) && ParseBool(Some("Yes"), false) && ParseBool(Some("oN"), false)
    ensures ParseBool(Some("1"), false)
    ensures !ParseBool(Some("false"), true) && !ParseBool(Some(""), true) && !ParseBool(Some(" true"), true)
    ensures !ParseBool(Some("0"), true)
  {
    assert Lower("TRUE") == "true";
    assert Lower("Yes") == "yes";
    assert Lower("oN") == "on";
    assert Lower("1") == "1";
    assert Lower("false") == "false";
    assert Lower(" true") == " true";
    assert Lower("0") == "0";
  }

  // ---------------------------------------------------------------- CORS origins

  /** `[p.strip() for p in pieces if p.strip()]` */
  function KeepStripped(pieces: seq<string>): (r: seq<string>)
    ensures |r| <= |pieces|
    ensures forall i :: 0 <= i < |r| ==> r[i] != "" && IsStripped(r[i])
    ensures forall o :: o in r <==> o != "" && exists j :: 0 <= j < |pieces| && Strip(pieces[j]) == o
  {
    if |pieces| == 0 then []
    else
      var o := Strip(pieces[0]);
      var rest := KeepStripped(pieces[1..]);
      assert forall j :: 1 <= j < |pieces| ==> pieces[j] == pieces[1..][j - 1];
      if o == "" then rest else [o] + rest
  }

  /**
   * The origin list the settings carry for a raw `CORS_ALLOW_ORIGINS` value:
   * every origin is non-empty, unpadded and comma-free, and the origins are
   * exactly the strips of the pieces between commas that are not blank.
   */
  function ParseOrigins(raw: string): (origins: seq<string>)
    ensures forall i :: 0 <= i < |origins| ==> origins[i] != "" && IsStripped(origins[i]) && ',' !in origins[i]
    ensures forall j :: 0 <= j < |Split(raw, ',')| && Strip(Split(raw, ',')[j]) != "" ==>
              Strip(Split(raw, ',')[j]) in origins
    ensures forall o :: o in origins ==> exists j :: 0 <= j < |Split(raw, ',')| && Strip(Split(raw, ',')[j]) == o
  {
    var pieces := Split(raw, ',');
    KeepStrippedKeepsOut(pieces, ',');
    KeepStripped(pieces)
  }

  /** A character no piece holds is in no kept origin either. */
  lemma {:induction false} KeepStrippedKeepsOut(pieces: seq<string>, c: char)
    requires forall j :: 0 <= j < |pieces| ==> c !in pieces[j]
    ensures forall i :: 0 <= i < |KeepStripped(pieces)| ==> c !in KeepStripped(pieces)[i]
    decreases |pieces|
  {
    if |pieces| > 0 {
      StripKeepsOut(pieces[0], c);
      KeepStrippedKeepsOut(pieces[1..], c);
    }
  }

  lemma StripKeepsOut(s: string, c: char)
    requires c !in s
    ensures c !in Strip(s)
  {
    var r := Strip(s);
    var a := LeadingSpaces(s);
    forall k | 0 <= k < |r|
      ensures r[k] != c
    {
      assert r[k] == s[a + k];
    }
  }

  /** Keeping stripped pieces distributes over concatenation: the input order is kept. */
  lemma {:induction false} KeepStrippedAppend(a: seq<string>, b: seq<string>)
    ensures KeepStripped(a + b) == KeepStripped(a) + KeepStripped(b)
    decreases |a|
  {
    if |a| > 0 {
      assert (a + b)[1..] == a[1..] + b;
      KeepStrippedAppend(a[1..], b);
    } else {
      assert a + b == b;
    }
  }

  /** Pieces that are already non-empty and stripped are kept, all of them and in order. */
  lemma {:induction false} KeepStrippedOfClean(xs: seq<string>)
    requires forall i :: 0 <= i < |xs| ==> xs[i] != "" && IsStripped(xs[i])
    ensures KeepStripped(xs) == xs
    decreases |xs|
  {
    if |xs| > 0 {
      StripStripped(xs[0]);
      KeepStrippedOfClean(xs[1..]);
      assert [xs[0]] + xs[1..] == xs;
    }
  }

  /** Re-parsing the comma-join of a parsed origin list yields the same list. */
  lemma ReparseOrigins(raw: string)
    ensures ParseOrigins(Join(ParseOrigins(raw), ',')) == ParseOrigins(raw)
  {
    var origins := ParseOrigins(raw);
    if |origins| == 0 {
      assert Split("", ',') == [""];
      assert Strip("") == "";
    } else {
      SplitJoin(origins, ',');
      KeepStrippedOfClean(origins);
    }
  }

  // ---------------------------------------------------------------- settings

  datatype Settings = Settings(
    databaseUrl: string,
    corsAllowOrigins: seq<string>,
    useOpenaiAnalysis: bool,
    openaiApiKey: Option<string>,
    openaiModel: string)

  const DefaultCorsOrigins: string := "http://localhost:5173"
  const DefaultDatabaseUrl: string := "sqlite:///./meals.db"
  const DefaultOpenaiModel: string := "gpt-4.1-mini"

  /** `load_settings()`, reading the given environment. */
  function LoadSettings(env: Env): (s: Settings)
    ensures "DATABASE_URL" in env ==> s.databaseUrl == env["DATABASE_URL"]
    ensures "DATABASE_URL" !in env ==> s.databaseUrl == DefaultDatabaseUrl
    ensures "OPENAI_MODEL" in env ==> s.openaiModel == env["OPENAI_MODEL"]
    ensures "OPENAI_MODEL" !in env ==> s.openaiModel == DefaultOpenaiModel
    ensures "CORS_ALLOW_ORIGINS" in env ==> s.corsAllowOrigins == ParseOrigins(env["CORS_ALLOW_ORIGINS"])
    ensures "CORS_ALLOW_ORIGINS" !in env ==> s.corsAllowOrigins == ParseOrigins(DefaultCorsOrigins)
    ensures "OPENAI_API_KEY" in env ==> s.openaiApiKey == Some(env["OPENAI_API_KEY"])
    ensures "OPENAI_API_KEY" !in env ==> s.openaiApiKey == None
    ensures s.useOpenaiAnalysis <==>
              "USE_OPENAI_ANALYSIS" in env && exists w :: w in TrueWords && SameIgnoringCase(env["USE_OPENAI_ANALYSIS"], w)
  {
    var corsOrigins := GetEnvOr(env, "CORS_ALLOW_ORIGINS", DefaultCorsOrigins);
    assert !ParseBool(Some("false"), false) by {
      assert Lower("false") == "false";
    }
    Settings(
      databaseUrl := GetEnvOr(env, "DATABASE_URL", DefaultDatabaseUrl),
      corsAllowOrigins := ParseOrigins(corsOrigins),
      useOpenaiAnalysis := ParseBool(Some(GetEnvOr(env, "USE_OPENAI_ANALYSIS", "false")), false),
      openaiApiKey := GetEnv(env, "OPENAI_API_KEY"),
      openaiModel := GetEnvOr(env, "OPENAI_MODEL", DefaultOpenaiModel))
  }

  /** Each unset variable gives its own fallback, whatever the others hold; the analysis flag is then off. */
  lemma LoadSettingsDefaults(env: Env)
    ensures "CORS_ALLOW_ORIGINS" !in env ==> LoadSettings(env).corsAllowOrigins == ["http://localhost:5173"]
    ensures "DATABASE_URL" !in env ==> LoadSettings(env).databaseUrl == "sqlite:///./meals.db"
    ensures "OPENAI_MODEL" !in env ==> LoadSettings(env).openaiModel == "gpt-4.1-mini"
    ensures "USE_OPENAI_ANALYSIS" !in env ==> !LoadSettings(env).useOpenaiAnalysis
    ensures "OPENAI_API_KEY" !in env ==> LoadSettings(env).openaiApiKey == None
  {
    SingleOrigin(DefaultCorsOrigins);
  }

  /** A comma joins two origin lists: both, in input order and with repeats kept. */
  lemma ParseOriginsAppend(a: string, b: string)
    ensures ParseOrigins(a + [','] + b) == ParseOrigins(a) + ParseOrigins(b)
  {
    SplitAppend(a, b, ',');
    KeepStrippedAppend(Split(a, ','), Split(b, ','));
  }

  /** A value without a comma is one origin, its strip, unless it is blank. */
  lemma ParseOriginsOfPiece(p: string)
    requires ',' !in p
    ensures ParseOrigins(p) == if Strip(p) == "" then [] else [Strip(p)]
  {
    SplitWithoutSeparator(p, ',');
    var pieces := [p];
    assert pieces[1..] == [];
  }

  /** A value with no comma and no surrounding whitespace is a one-origin list. */
  lemma SingleOrigin(o: string)
    requires o != "" && IsStripped(o) && ',' !in o
    ensures ParseOrigins(o) == [o]
  {
    SplitWithoutSeparator(o, ',');
    StripStripped(o);
    var pieces := [o];
    assert pieces[1..] == [];
  }

  /** Two clean origins joined by a comma parse to both, first one first, even when they are equal. */
  lemma TwoOrigins(first: string, second: string)
    requires first != "" && IsStripped(first) && ',' !in first
    requires second != "" && IsStripped(second) && ',' !in second
    ensures ParseOrigins(first + [','] + second) == [first, second]
  {
    ParseOriginsAppend(first, second);
    SingleOrigin(first);
    SingleOrigin(second);
  }

  /** A variable set to the empty string is used as is: an empty `CORS_ALLOW_ORIGINS` allows no origin. */
  lemma EmptyCorsVariableAllowsNothing(env: Env)
    requires "CORS_ALLOW_ORIGINS" in env && env["CORS_ALLOW_ORIGINS"] == ""
    ensures LoadSettings(env).corsAllowOrigins == []
  {
    assert Split("", ',') == [""];
    assert Strip("") == "";
  }

  /** The loaded origin list is clean and survives a join-and-reparse unchanged. */
  lemma LoadedOriginsAreClean(env: Env)
    ensures forall o :: o in LoadSettings(env).corsAllowOrigins ==> o != "" && IsStripped(o) && ',' !in o
    ensures var os := LoadSettings(env).corsAllowOrigins; ParseOrigins(Join(os, ',')) == os
  {
    var raw := GetEnvOr(env, "CORS_ALLOW_ORIGINS", DefaultCorsOrigins);
    ReparseOrigins(raw);
  }
}

=== FILE: dashboard.dfy ===
/**
 * The daily summary view: the shared fetch machine holding the summary
 * payload (initially `null`), and the decisions its markup makes.
 */
module Dashboard {

  import opened Maybe
  import opened JsValue
  import opened Feed

  /** The view on mount: no summary yet. */
  function MountSummary(today: string): (r: FeedState)
    ensures r.selectedDate == today && r.data == Null && !r.loading && r.observed == None
  {
    Feed.Mount(today, Null)
  }

  /** The noun after the meal count: singular exactly when the count is the number 1. */
  function CountNoun(count: Option<Json>): (w: string)
    ensures w == "meal" || w == "meals"
    ensures w == "meal" <==> count == Some(Num(1.0))
  {
    "meal" + (if count != Some(Num(1.0)) then "s" else "")
  }

  /** The four totals the grid formats with `toFixed`. */
  const TotalKeys: seq<string> := ["total_calories", "total_protein", "total_carbs", "total_fat"]

  /** `toFixed` exists on numbers only: any other total (or a missing one) makes the render throw. */
  predicate TotalsAreNumbers(summary: Json)
    requires summary != Null
  {
    forall i :: 0 <= i < |TotalKeys| ==> Prop(summary, TotalKeys[i]).Some? && Prop(summary, TotalKeys[i]).value.Num?
  }

  /** A parsed value React can render as a child: anything but an object, and an array item by item. */
  predicate Renderable(j: Json)
  {
    match j
    case Obj(_) => false
    case Arr(items) => forall i :: 0 <= i < |items| ==> Renderable(items[i])
    case _ => true
  }

  /** `{summary.date}` and `{summary.meal_count}`: an undefined property renders nothing, an object throws. */
  predicate HeaderRenders(summary: Json)
    requires summary != Null
  {
    var date := Prop(summary, "date");
    var count := Prop(summary, "meal_count");
    (date.None? || Renderable(date.value)) && (count.None? || Renderable(count.value))
  }

  /**
   * The summary section: the payload's date and count as given, the noun,
   * the four totals (their number formatting is not modelled), and the
   * empty-state message as a flag, because it is shown below the grid, not
   * in place of it.
   */
  datatype Section = Section(
    date: Option<Json>,
    mealCount: Option<Json>,
    noun: string,
    totalCalories: real,
    totalProtein: real,
    totalCarbs: real,
    totalFat: real,
    emptyMessage: bool)

  /** `Crash` is a render that throws. */
  datatype Screen = LoadingText | Summary(section: Section) | Nothing | Crash

  /** The section for a truthy summary payload whose totals are numbers. */
  function SectionOf(summary: Json): (sec: Section)
    requires Truthy(summary) && TotalsAreNumbers(summary)
    ensures sec.emptyMessage <==> Prop(summary, "meal_count") == Some(Num(0.0))
    ensures sec.noun == "meal" <==> Prop(summary, "meal_count") == Some(Num(1.0))
    ensures sec.date == Prop(summary, "date") && sec.mealCount == Prop(summary, "meal_count")
    ensures Prop(summary, "total_calories") == Some(Num(sec.totalCalories))
    ensures Prop(summary, "total_protein") == Some(Num(sec.totalProtein))
    ensures Prop(summary, "total_carbs") == Some(Num(sec.totalCarbs))
    ensures Prop(summary, "total_fat") == Some(Num(sec.totalFat))
  {
    assert Prop(summary, TotalKeys[0]).Some? && Prop(summary, TotalKeys[1]).Some?;
    assert Prop(summary, TotalKeys[2]).Some? && Prop(summary, TotalKeys[3]).Some?;
    var count := Prop(summary, "meal_count");
    Section(
      Prop(summary, "date"), count, CountNoun(count),
      Prop(summary, "total_calories").value.n, Prop(summary, "total_protein").value.n,
      Prop(summary, "total_carbs").value.n, Prop(summary, "total_fat").value.n,
      count == Some(Num(0.0)))
  }

  /**
   * What the view shows: loading first, then a truthy summary (if its header
   * and grid can be drawn), else nothing.
   */
  function View(s: FeedState): (v: Screen)
    ensures v.LoadingText? <==> s.loading
    ensures v.Nothing? <==> !s.loading && !Truthy(s.data)
    ensures v.Summary? <==> !s.loading && Truthy(s.data) && TotalsAreNumbers(s.data) && HeaderRenders(s.data)
    ensures v.Summary? ==> v.section == SectionOf(s.data)
  {
    if s.loading then LoadingText
    else if !Truthy(s.data) then Nothing
    else if TotalsAreNumbers(s.data) && HeaderRenders(s.data) then Summary(SectionOf(s.data))
    else Crash
  }

  /** A payload whose date is an object throws on render, even with all four totals numeric. */
  lemma ObjectDateCrashes(s: FeedState, nested: map<string, Json>)
    requires !s.loading && s.data.Obj? && TotalsAreNumbers(s.data)
    requires "date" in s.data.fields && s.data.fields["date"] == Obj(nested)
    ensures View(s) == Crash
  {
  }

  /** Zero meals shows the message and the plural noun, together with the whole grid. */
  lemma NoMealsShowsGridAndMessage(s: FeedState, calories: real, protein: real, carbs: real, fat: real)
    requires !s.loading && s.data.Obj?
    requires s.data.fields == map[
      "meal_count" := Num(0.0), "total_calories" := Num(calories), "total_protein" := Num(protein),
      "total_carbs" := Num(carbs), "total_fat" := Num(fat)]
    ensures View(s).Summary?
    ensures View(s).section.emptyMessage && View(s).section.noun == "meals"
    ensures View(s).section.totalCalories == calories && View(s).section.totalProtein == protein
    ensures View(s).section.totalCarbs == carbs && View(s).section.totalFat == fat
  {
    assert TotalsAreNumbers(s.data);
  }

  /** A mounted summary view shows nothing but, after its first render, the loading text. */
  lemma MountedViewLoads(today: string, refreshToken: int)
    ensures View(MountSummary(today)) == Nothing
    ensures View(Render(MountSummary(today), refreshToken).state) == LoadingText
  {
  }

  /**
   * A refresh whose request fails leaves the screen as it was before the
   * refresh: the previous summary stays on display.
   */
  lemma FailedRefreshKeepsScreen(s: FeedState, refreshToken: int)
    requires !s.loading
    ensures View(Settle(Render(s, refreshToken).state, Failed)) == View(s)
  {
  }

  /** A refresh that gets a payload shows exactly that payload's section. */
  lemma RefreshShowsPayload(s: FeedState, refreshToken: int, payload: Json)
    requires Truthy(payload) && TotalsAreNumbers(payload) && HeaderRenders(payload)
    ensures View(Settle(Render(s, refreshToken).state, Parsed(payload))) == Summary(SectionOf(payload))
  {
  }
}

=== FILE: feed.dfy ===
/**
 * The fetch-and-apply machine the summary and history views share. Each keeps
 * a selected date, the last payload, a `loading` flag, and an effect with the
 * dependency list `[selectedDate, refreshToken]` that issues one GET for the
 * selected date. The effect's last dependency values are kept in `observed`
 * (None before the first render). There is no request sequence number: a
 * response is applied whenever it arrives.
 */
module Feed {

  import opened Maybe
  import opened JsValue

  /** The values of the effect's dependency list at one render. */
  datatype Deps = Deps(selectedDate: string, refreshToken: int)

  datatype FeedState = FeedState(selectedDate: string, data: Json, loading: bool, observed: Option<Deps>)

  /** A freshly mounted view: nothing observed yet, nothing loading. */
  function Mount(today: string, initial: Json): (r: FeedState)
    ensures r.selectedDate == today && r.data == initial && !r.loading
    ensures r.observed == None
  {
    FeedState(today, initial, false, None)
  }

  /** The date input changed: the date moves and nothing else, so no request is sent until the next render. */
  function SelectDate(s: FeedState, date: string): (r: FeedState)
    ensures r.selectedDate == date && r.(selectedDate := s.selectedDate) == s
  {
    s.(selectedDate := date)
  }

  /** A render pass and what it sends: the date of a GET, or None when the effect does not run. */
  datatype Rendered = Rendered(request: Option<string>, state: FeedState)

  /**
   * A render with the parent's current `refreshToken`. The effect runs on the
   * first render and whenever either dependency differs from the previous
   * render's; running it sets `loading` and sends a GET for the selected date.
   */
  function Render(s: FeedState, refreshToken: int): (r: Rendered)
    ensures r.request.Some? <==> s.observed != Some(Deps(s.selectedDate, refreshToken))
    ensures r.request.Some? ==> r.request.value == s.selectedDate && r.state.loading
    ensures r.request.None? ==> r.state == s
    ensures r.state.observed == Some(Deps(s.selectedDate, refreshToken))
    ensures r.state.data == s.data && r.state.selectedDate == s.selectedDate
  {
    var now := Deps(s.selectedDate, refreshToken);
    if s.observed == Some(now) then Rendered(None, s)
    else Rendered(Some(s.selectedDate), s.(loading := true, observed := Some(now)))
  }

  /** The tail of the fetch: a parsed body replaces the data, a failure keeps it; `loading` ends either way. */
  function Settle(s: FeedState, outcome: Reply): (r: FeedState)
    ensures !r.loading
    ensures outcome.Parsed? ==> r.data == outcome.data
    ensures outcome.Failed? ==> r.data == s.data
    ensures r.selectedDate == s.selectedDate && r.observed == s.observed
  {
    match outcome
    case Parsed(data) => s.(data := data, loading := false)
    case Failed => s.(loading := false)
  }

  /** Rendering again with unchanged inputs sends nothing: one trigger, one request. */
  lemma RenderAgainSendsNothing(s: FeedState, refreshToken: int)
    ensures var first := Render(s, refreshToken);
      Render(first.state, refreshToken) == Rendered(None, first.state)
  {
  }

  /** A mounted view fetches on its first render, for its initial date. */
  lemma MountFetches(today: string, initial: Json, refreshToken: int)
    ensures Render(Mount(today, initial), refreshToken).request == Some(today)
  {
  }

  // ---------------------------------------------------------------- trigger counting

  /**
   * Renders driven by a sequence of dependency values (the date input set to
   * each one's date, then a render with its token); the GETs sent, in order.
   */
  function RenderAll(s: FeedState, inputs: seq<Deps>): (FeedState, seq<string>)
    decreases |inputs|
  {
    if |inputs| == 0 then (s, [])
    else
      var r := Render(SelectDate(s, inputs[0].selectedDate), inputs[0].refreshToken);
      var rest := RenderAll(r.state, inputs[1..]);
      (rest.0, (if r.request.Some? then [r.request.value] else []) + rest.1)
  }

  /** The dates of the inputs that differ from the one before them (the first from `last`). */
  function ChangedDates(last: Option<Deps>, inputs: seq<Deps>): seq<string>
    decreases |inputs|
  {
    if |inputs| == 0 then []
    else
      (if last == Some(inputs[0]) then [] else [inputs[0].selectedDate])
      + ChangedDates(Some(inputs[0]), inputs[1..])
  }

  /**
   * Exactly one GET per change of `(selectedDate, refreshToken)`, for the new
   * date, and none for a repeat of the previous values.
   */
  lemma {:induction false} RequestsFollowChanges(s: FeedState, inputs: seq<Deps>)
    ensures RenderAll(s, inputs).1 == ChangedDates(s.observed, inputs)
    ensures |inputs| > 0 ==> RenderAll(s, inputs).0.observed == Some(inputs[|inputs| - 1])
    decreases |inputs|
  {
    if |inputs| > 0 {
      var r := Render(SelectDate(s, inputs[0].selectedDate), inputs[0].refreshToken);
      RequestsFollowChanges(r.state, inputs[1..]);
    }
  }

  // ---------------------------------------------------------------- no race safety

  /**
   * Responses are applied in the order they arrive, not the order they were
   * sent: when the request for an earlier date answers last, its payload is
   * what the view keeps, next to the newer selected date.
   */
  lemma LateResponseOverwrites(s: FeedState, token: int, newDate: string, stale: Json, latest: Json)
    requires s.observed != Some(Deps(s.selectedDate, token))
    requires newDate != s.selectedDate
    ensures
      var a := Render(s, token);
      var b := Render(SelectDate(a.state, newDate), token);
      var settled := Settle(Settle(b.state, Parsed(latest)), Parsed(stale));
      && a.request == Some(s.selectedDate)
      && b.request == Some(newDate)
      && settled.selectedDate == newDate
      && settled.data == stale
      && !settled.loading
  {
  }

  /** The first response to arrive clears `loading` even while another request is still out. */
  lemma FirstResponseEndsLoading(s: FeedState, token: int, newDate: string, outcome: Reply)
    requires newDate != s.selectedDate
    ensures
      var a := Render(s, token);
      var b := Render(SelectDate(a.state, newDate), token);
      b.request.Some? && !Settle(b.state, outcome).loading
  {
  }
}

=== FILE: history.dfy ===
/**
 * The meal history view: the shared fetch machine holding the meal list
 * (initially `[]`), the icon and label of each meal, and the list the markup
 * builds.
 */
module History {

  import opened Maybe
  import opened JsValue
  import opened Text
  import opened Feed

  /** The view on mount: an empty meal list. */
  function MountHistory(today: string): (r: FeedState)
    ensures r.selectedDate == today && r.data == Arr([]) && !r.loading && r.observed == None
  {
    Feed.Mount(today, Arr([]))
  }

  // ---------------------------------------------------------------- icons

  /** The icon table's own entries. */
  const Icons: map<string, char> := map["breakfast" := 'B', "lunch" := 'L', "dinner" := 'D', "snack" := 'S']

  /** The names an object literal inherits from `Object.prototype`. */
  const ObjectPrototypeKeys: set<string> := {
    "constructor", "hasOwnProperty", "isPrototypeOf", "propertyIsEnumerable",
    "toLocaleString", "toString", "valueOf", "__proto__",
    "__defineGetter__", "__defineSetter__", "__lookupGetter__", "__lookupSetter__"}

  /** What `icons[mealType] || 'M'` yields: a letter, or an inherited member (a function or object, both truthy). */
  datatype IconLookup = Letter(c: char) | Inherited(member: string)

  /** `getMealIcon` as written: the table is a plain object literal, so lookups see its prototype too. */
  function IconLookupAsWritten(mealType: string): (r: IconLookup)
    ensures mealType in Icons ==> r == Letter(Icons[mealType])
    ensures mealType !in Icons ==> (r.Inherited? <==> mealType in ObjectPrototypeKeys)
    ensures mealType !in Icons && mealType !in ObjectPrototypeKeys ==> r == Letter('M')
    ensures r.Inherited? ==> r.member == mealType
  {
    if mealType in Icons then Letter(Icons[mealType])
    else if mealType in ObjectPrototypeKeys then Inherited(mealType)
    else Letter('M')
  }

  /** The fallback is not reached for "constructor": the lookup returns `Object` itself. */
  lemma ConstructorMissesFallback()
    ensures IconLookupAsWritten("constructor") == Inherited("constructor")
    ensures IconLookupAsWritten("constructor") != Letter('M')
  {
  }

  /** `getMealIcon` as intended: the four meal types get their letter and every other string gets 'M'. */
  function MealIcon(mealType: string): (c: char)
    ensures c == 'B' <==> mealType == "breakfast"
    ensures c == 'L' <==> mealType == "lunch"
    ensures c == 'D' <==> mealType == "dinner"
    ensures c == 'S' <==> mealType == "snack"
    ensures c == 'M' <==> mealType !in {"breakfast", "lunch", "dinner", "snack"}
  {
    if mealType in Icons then Icons[mealType] else 'M'
  }

  /** The two agree on every string that is not an `Object.prototype` member name. */
  lemma MealIconAgreesAwayFromPrototype(mealType: string)
    requires mealType !in ObjectPrototypeKeys
    ensures IconLookupAsWritten(mealType) == Letter(MealIcon(mealType))
  {
  }

  // ---------------------------------------------------------------- labels

  /** `t.charAt(0).toUpperCase() + t.slice(1)`, with ASCII case mapping. */
  function Capitalize(t: string): (r: string)
    ensures |r| == |t|
    ensures |t| > 0 ==> r[0] == UpperChar(t[0]) && r[1..] == t[1..]
  {
    if |t| == 0 then "" else [UpperChar(t[0])] + t[1..]
  }

  /** Capitalizing changes only letter case, and doing it twice is doing it once. */
  lemma CapitalizeOnlyChangesCase(t: string)
    ensures SameIgnoringCase(Capitalize(t), t)
    ensures Capitalize(Capitalize(t)) == Capitalize(t)
  {
    var r := Capitalize(t);
    if |t| > 0 {
      assert LowerChar(UpperChar(t[0])) == LowerChar(t[0]);
      assert forall i :: 1 <= i < |t| ==> r[i] == t[i];
    }
  }

  // ---------------------------------------------------------------- cards

  /** One meal card: the icon, the food, the capitalized type, and the four amounts as stored. */
  datatype Card = Card(
    icon: char,
    food: Option<Json>,
    typeLabel: string,
    calories: Option<Json>,
    protein: Option<Json>,
    carbs: Option<Json>,
    fat: Option<Json>)

  /**
   * The card for one list element; None where the `meal_type` access or
   * `charAt` throws (the element is not an object, or its `meal_type` is not a
   * string). A field rendered raw is carried as it is, even an object.
   */
  function CardOf(meal: Json): (c: Option<Card>)
    ensures c.Some? <==> meal.Obj? && "meal_type" in meal.fields && meal.fields["meal_type"].Str?
    ensures c.Some? ==> c.value.typeLabel == Capitalize(meal.fields["meal_type"].s)
    ensures c.Some? ==> c.value.icon == MealIcon(meal.fields["meal_type"].s)
    ensures c.Some? ==> c.value.food == Prop(meal, "food")
    ensures c.Some? ==> c.value.calories == Prop(meal, "calories") && c.value.protein == Prop(meal, "protein")
    ensures c.Some? ==> c.value.carbs == Prop(meal, "carbs") && c.value.fat == Prop(meal, "fat")
  {
    match meal
    case Obj(fields) =>
      if "meal_type" in fields && fields["meal_type"].Str? then
        var t := fields["meal_type"].s;
        Some(Card(MealIcon(t), Prop(meal, "food"), Capitalize(t),
                  Prop(meal, "calories"), Prop(meal, "protein"), Prop(meal, "carbs"), Prop(meal, "fat")))
      else None
    case _ => None
  }

  /** `meals.map(...)`: one card per meal, in the order received, or None if any card throws. */
  function CardsOf(meals: seq<Json>): (r: Option<seq<Card>>)
    ensures r.Some? <==> forall i :: 0 <= i < |meals| ==> CardOf(meals[i]).Some?
    ensures r.Some? ==> |r.value| == |meals|
    ensures r.Some? ==> forall i :: 0 <= i < |meals| ==> CardOf(meals[i]) == Some(r.value[i])
    decreases |meals|
  {
    if |meals| == 0 then Some([])
    else
      match (CardOf(meals[0]), CardsOf(meals[1..]))
      case (Some(c), Some(cs)) =>
        assert forall i :: 1 <= i < |meals| ==> meals[i] == meals[1..][i - 1];
        Some([c] + cs)
      case _ =>
        assert forall i :: 1 <= i < |meals| ==> meals[i] == meals[1..][i - 1];
        None
  }

  /** The body of the list once loading is over. `Crash` is a render that throws. */
  datatype ListBody = EmptyMessage | Cards(cards: seq<Card>) | Crash

  /**
   * `meals.length === 0 ? message : meals.map(...)` for any parsed payload:
   * only an array can be mapped; a string or object can still have length 0.
   */
  function ListOf(meals: Json): (b: ListBody)
    ensures meals.Arr? ==> (b.EmptyMessage? <==> |meals.items| == 0)
    ensures b.Cards? ==> meals.Arr? && |meals.items| > 0 && Some(b.cards) == CardsOf(meals.items)
    ensures meals.Arr? && |meals.items| > 0 && CardsOf(meals.items).Some? ==> b.Cards?
  {
    match meals
    case Arr(items) =>
      if |items| == 0 then EmptyMessage
      else (match CardsOf(items) case Some(cards) => Cards(cards) case None => Crash)
    case Str(text) => if |text| == 0 then EmptyMessage else Crash
    case Obj(fields) => if "length" in fields && fields["length"] == Num(0.0) then EmptyMessage else Crash
    case _ => Crash
  }

  datatype Screen = LoadingText | List(body: ListBody)

  function View(s: FeedState): (v: Screen)
    ensures v.LoadingText? <==> s.loading
    ensures v.List? ==> v.body == ListOf(s.data)
  {
    if s.loading then LoadingText else List(ListOf(s.data))
  }

  /** A meal record as the store sends it: an object whose `meal_type` is a string. */
  predicate IsMealRecord(meal: Json)
  {
    meal.Obj? && "meal_type" in meal.fields && meal.fields["meal_type"].Str?
  }

  /**
   * A list of meal records shows the message when empty and otherwise one
   * card per record, in the order received, each with that record's amounts.
   */
  lemma {:induction false} RecordsRenderInOrder(meals: seq<Json>)
    requires forall i :: 0 <= i < |meals| ==> IsMealRecord(meals[i])
    ensures |meals| == 0 ==> ListOf(Arr(meals)) == EmptyMessage
    ensures |meals| > 0 ==> ListOf(Arr(meals)).Cards?
    ensures |meals| > 0 ==> |ListOf(Arr(meals)).cards| == |meals|
    ensures |meals| > 0 ==> forall i :: 0 <= i < |meals| ==>
              var card := ListOf(Arr(meals)).cards[i];
              card.calories == Prop(meals[i], "calories") && card.protein == Prop(meals[i], "protein")
              && card.carbs == Prop(meals[i], "carbs") && card.fat == Prop(meals[i], "fat")
  {
    if |meals| > 0 {
      assert CardsOf(meals).Some?;
    }
  }

  /** The mounted view's empty list shows the message once it is not loading. */
  lemma MountedListIsEmpty(today: string)
    ensures View(MountHistory(today)) == List(EmptyMessage)
  {
  }

  /** A failed refresh leaves the list on screen as it was. */
  lemma FailedRefreshKeepsList(s: FeedState, refreshToken: int)
    requires !s.loading
    ensures View(Settle(Render(s, refreshToken).state, Failed)) == View(s)
  {
  }
}

=== FILE: js_value.dfy ===
/** Optional values: an absent environment variable, an unset file, an undefined property. */
module Maybe {

  datatype Option<+T> = None | Some(value: T)
}

/**
 * The values `JSON.parse` (and `response.json()`) can produce, with the two
 * JavaScript notions the components lean on: truthiness and property access.
 * JSON never yields `undefined`, `NaN` or a function; numbers are modelled as
 * reals (floating-point rounding is not modelled).
 */
module JsValue {

  import opened Maybe

  datatype Json =
    | Null
    | Bool(b: bool)
    | Num(n: real)
    | Str(s: string)
    | Arr(items: seq<Json>)
    | Obj(fields: map<string, Json>)

  /**
   * What a request whose body is read with `response.json()` came back with.
   * The status code is never looked at, so an error response whose body is
   * JSON is `Parsed` too; `Failed` is a rejected `fetch` or a body that is
   * not JSON.
   */
  datatype Reply = Parsed(data: Json) | Failed

  /** JavaScript truthiness of a parsed value: `null`, `false`, `0` and `""` are falsy. */
  predicate Truthy(j: Json): (t: bool)
    ensures !t <==> j == Null || j == Bool(false) || j == Num(0.0) || j == Str("")
  {
    match j
    case Null => false
    case Bool(b) => b
    case Num(n) => n != 0.0
    case Str(s) => s != ""
    case Arr(_) => true
    case Obj(_) => true
  }

  /**
   * `j.key` for a key that no prototype defines (every key the components
   * read is such a key): the own property of an object, or `undefined`
   * (None) for any other value. Reading a property of `null` throws, so the
   * caller must rule `null` out.
   */
  function Prop(j: Json, key: string): (r: Option<Json>)
    requires j != Null
    ensures r.Some? <==> j.Obj? && key in j.fields
    ensures r.Some? ==> r.value == j.fields[key]
  {
    match j
    case Obj(fields) => if key in fields then Some(fields[key]) else None
    case _ => None
  }
}

=== FILE: session.dfy ===
/**
 * The coordinator together with whichever view it has mounted. Switching to
 * another tab unmounts the current view, discarding its state, and mounts the
 * new one fresh, which renders (and so fetches) at once; clicking the tab
 * already active sets the same value and changes nothing. `today` on a tab
 * click stands for the current UTC date when the new view mounts. A feed
 * response names the mount whose request it answers and is applied only to
 * that mount while it still has a request out; responses to the same mount
 * land in whatever order they arrive.
 */
module Session {

  import opened Maybe
  import opened JsValue
  import opened Feed
  import App
  import Upload
  import Dashboard
  import History

  datatype Screen =
    | UploadScreen(upload: Upload.UploadState)
    | DashboardScreen(summary: FeedState)
    | HistoryScreen(history: FeedState)

  /**
   * `mount` numbers the mounted view (one more on every remount) and
   * `pending` counts the requests that view has sent and not yet had answered.
   */
  datatype SessionState = SessionState(app: App.AppState, screen: Screen, mount: nat, pending: nat)

  /** The screen shown is the one the active tab names, and only a feed view waits for answers. */
  predicate ScreenMatchesTab(s: SessionState)
  {
    && (match s.app.activeTab
        case UploadTab => s.screen.UploadScreen?
        case DashboardTab => s.screen.DashboardScreen?
        case HistoryTab => s.screen.HistoryScreen?)
    && (s.screen.UploadScreen? ==> s.pending == 0)
  }

  /** On launch: the upload tab with a fresh capture view, the counter at 0 and no request out. */
  function Start(today: string): (r: SessionState)
    ensures ScreenMatchesTab(r) && r.app.refreshToken == 0 && r.pending == 0
    ensures r.screen == UploadScreen(Upload.Mount(today))
  {
    SessionState(App.Init(), UploadScreen(Upload.Mount(today)), 0, 0)
  }

  /** How many requests a render sent: one when its effect ran. */
  function Sent(r: Rendered): nat
  {
    if r.request.Some? then 1 else 0
  }

  /** The view for `tab` mounted fresh as number `mount` and rendered once with the current counter. */
  function MountScreen(app: App.AppState, tab: App.Tab, today: string, mount: nat): (r: SessionState)
    ensures r.app == app && r.mount == mount
    ensures app.activeTab == tab ==> ScreenMatchesTab(r)
    ensures tab == App.UploadTab ==> r.screen == UploadScreen(Upload.Mount(today)) && r.pending == 0
    ensures tab == App.DashboardTab ==> r.screen.DashboardScreen? && r.screen.summary.loading && r.pending == 1
    ensures tab == App.HistoryTab ==> r.screen.HistoryScreen? && r.screen.history.loading && r.pending == 1
    ensures tab == App.DashboardTab ==> r.screen.summary.observed == Some(Deps(today, app.refreshToken))
    ensures tab == App.HistoryTab ==> r.screen.history.observed == Some(Deps(today, app.refreshToken))
  {
    match tab
    case UploadTab => SessionState(app, UploadScreen(Upload.Mount(today)), mount, 0)
    case DashboardTab =>
      var r := Render(Dashboard.MountSummary(today), app.refreshToken);
      SessionState(app, DashboardScreen(r.state), mount, Sent(r))
    case HistoryTab =>
      var r := Render(History.MountHistory(today), app.refreshToken);
      SessionState(app, HistoryScreen(r.state), mount, Sent(r))
  }

  /**
   * The inputs a session sees. A feed response names the mount whose request
   * it answers; React drops a state update aimed at an unmounted view.
   */
  datatype Event =
    | TabClicked(tab: App.Tab, today: string)
    | UploadInput(input: Upload.Event)
    | FeedDatePicked(date: string)
    | FeedResponse(mount: nat, outcome: Reply)

  /** The save notices one upload step passes to the coordinator: `handleMealSaved` is always provided. */
  function Notify(app: App.AppState, notices: nat): App.AppState
    requires notices <= 1
  {
    if notices == 1 then App.MealSaved(app) else app
  }

  /** A response that lands: it answers a request of the view still mounted that is still unanswered. */
  predicate Lands(s: SessionState, e: Event)
  {
    e.FeedResponse? && e.mount == s.mount && s.pending > 0 && !s.screen.UploadScreen?
  }

  /**
   * One event. Input aimed at a view that is not mounted changes nothing, and
   * so does a response to a request of an earlier mount or one with no request
   * left to answer.
   */
  function Next(s: SessionState, e: Event): (r: SessionState)
    ensures e.TabClicked? ==> r.app.activeTab == e.tab
    ensures e.TabClicked? && e.tab == s.app.activeTab ==> r == s
    ensures e.TabClicked? && e.tab != s.app.activeTab ==> r == MountScreen(App.ClickTab(s.app, e.tab), e.tab, e.today, s.mount + 1)
    ensures e.TabClicked? && e.tab != s.app.activeTab ==> r.mount == s.mount + 1
    ensures e.UploadInput? && s.screen.UploadScreen? ==>
              r.screen == UploadScreen(Upload.Step(s.screen.upload, e.input, true).state)
    ensures Lands(s, e) && s.screen.DashboardScreen? ==> r.screen == DashboardScreen(Settle(s.screen.summary, e.outcome))
    ensures Lands(s, e) && s.screen.HistoryScreen? ==> r.screen == HistoryScreen(Settle(s.screen.history, e.outcome))
    ensures !e.TabClicked? ==> r.app.activeTab == s.app.activeTab && r.mount == s.mount
    ensures e.FeedResponse? && !Lands(s, e) ==> r == s
    ensures Lands(s, e) ==> r.pending == s.pending - 1
  {
    match e
    case TabClicked(tab, today) =>
      if tab == s.app.activeTab then s
      else MountScreen(App.ClickTab(s.app, tab), tab, today, s.mount + 1)
    case UploadInput(input) =>
      (match s.screen
       case UploadScreen(u) =>
         var step := Upload.Step(u, input, true);
         s.(app := Notify(s.app, step.notified), screen := UploadScreen(step.state))
       case _ => s)
    case FeedDatePicked(date) =>
      (match s.screen
       case DashboardScreen(f) =>
         var r := Render(SelectDate(f, date), s.app.refreshToken);
         s.(screen := DashboardScreen(r.state), pending := s.pending + Sent(r))
       case HistoryScreen(f) =>
         var r := Render(SelectDate(f, date), s.app.refreshToken);
         s.(screen := HistoryScreen(r.state), pending := s.pending + Sent(r))
       case UploadScreen(_) => s)
    case FeedResponse(mount, outcome) =>
      if !Lands(s, e) then s
      else
        (match s.screen
         case DashboardScreen(f) => s.(screen := DashboardScreen(Settle(f, outcome)), pending := s.pending - 1)
         case HistoryScreen(f) => s.(screen := HistoryScreen(Settle(f, outcome)), pending := s.pending - 1)
         case UploadScreen(_) => s)
  }

  /** An event that saves a meal: a save click on the mounted upload view that sends and gets OK. */
  predicate SavesMeal(s: SessionState, e: Event)
  {
    e.UploadInput? && e.input.SaveClicked? && s.screen.UploadScreen?
    && Upload.SaveSucceeds(s.screen.upload, e.input.save)
  }

  lemma NextStep(s: SessionState, e: Event)
    requires ScreenMatchesTab(s)
    ensures ScreenMatchesTab(Next(s, e))
    ensures Next(s, e).app.refreshToken == s.app.refreshToken + (if SavesMeal(s, e) then 1 else 0)
  {
  }

  function Run(s: SessionState, events: seq<Event>): SessionState
    decreases |events|
  {
    if |events| == 0 then s else Run(Next(s, events[0]), events[1..])
  }

  /** How many of the events save a meal, each judged in the state it meets. */
  function MealsSaved(s: SessionState, events: seq<Event>): nat
    decreases |events|
  {
    if |events| == 0 then 0
    else (if SavesMeal(s, events[0]) then 1 else 0) + MealsSaved(Next(s, events[0]), events[1..])
  }

  /**
   * The counter goes up by exactly one per saved meal and for nothing else
   * (failed saves, tab switches and fetches leave it), and the mounted view
   * always matches the active tab.
   */
  lemma {:induction false} CounterCountsSavedMeals(s: SessionState, events: seq<Event>)
    requires ScreenMatchesTab(s)
    ensures ScreenMatchesTab(Run(s, events))
    ensures Run(s, events).app.refreshToken == s.app.refreshToken + MealsSaved(s, events)
    decreases |events|
  {
    if |events| > 0 {
      NextStep(s, events[0]);
      CounterCountsSavedMeals(Next(s, events[0]), events[1..]);
    }
  }

  /** From launch, the counter equals the number of meals saved. */
  lemma CounterFromStart(today: string, events: seq<Event>)
    ensures Run(Start(today), events).app.refreshToken == MealsSaved(Start(today), events)
  {
    CounterCountsSavedMeals(Start(today), events);
  }

  /**
   * Leaving the upload tab and coming back remounts the upload view: the
   * picked file, the analysis and the chosen date and meal type are gone.
   */
  lemma LeavingUploadDiscardsIt(s: SessionState, other: App.Tab, today1: string, today2: string)
    requires s.app.activeTab == App.UploadTab && other != App.UploadTab
    ensures Run(s, [TabClicked(other, today1), TabClicked(App.UploadTab, today2)]).screen
              == UploadScreen(Upload.Mount(today2))
  {
    var events := [TabClicked(other, today1), TabClicked(App.UploadTab, today2)];
    var mid := Next(s, events[0]);
    assert mid.app.activeTab == other;
    assert events[1..] == [TabClicked(App.UploadTab, today2)];
    assert Run(s, events) == Run(mid, events[1..]);
    assert Run(mid, events[1..]) == Run(Next(mid, events[1]), []);
  }

  /** Opening a feed tab from another tab always starts a fetch with the current counter. */
  lemma OpeningFeedTabFetches(s: SessionState, tab: App.Tab, today: string)
    requires tab != App.UploadTab && tab != s.app.activeTab
    ensures var n := Next(s, TabClicked(tab, today));
      match n.screen
      case DashboardScreen(f) => f.loading && f.observed == Some(Deps(today, s.app.refreshToken))
      case HistoryScreen(f) => f.loading && f.observed == Some(Deps(today, s.app.refreshToken))
      case UploadScreen(_) => false
    ensures Next(s, TabClicked(tab, today)).pending == 1
  {
  }

  /**
   * A summary answer that arrives after the user moved to the history tab is
   * dropped: the history view is left exactly as it was mounted.
   */
  lemma ResponseAfterLeavingIsDropped(s: SessionState, today: string, outcome: Reply)
    requires s.app.activeTab == App.DashboardTab
    ensures var moved := Next(s, TabClicked(App.HistoryTab, today));
      Run(s, [TabClicked(App.HistoryTab, today), FeedResponse(s.mount, outcome)]) == moved
  {
    var events := [TabClicked(App.HistoryTab, today), FeedResponse(s.mount, outcome)];
    var moved := Next(s, events[0]);
    assert events[1..] == [FeedResponse(s.mount, outcome)];
    assert Run(s, events) == Run(moved, events[1..]);
    assert Run(moved, events[1..]) == Run(Next(moved, events[1]), []);
  }

  /**
   * Each request is answered at most once: after a freshly opened feed view
   * has had its one request answered, a repeat of that answer changes nothing.
   */
  lemma OneAnswerPerRequest(s: SessionState, tab: App.Tab, today: string, first: Reply, again: Reply)
    requires tab != App.UploadTab && tab != s.app.activeTab
    ensures var view := Next(s, TabClicked(tab, today));
      var answered := Next(view, FeedResponse(view.mount, first));
      answered.pending == 0 && Next(answered, FeedResponse(view.mount, again)) == answered
  {
    var view := Next(s, TabClicked(tab, today));
    OpeningFeedTabFetches(s, tab, today);
    assert Lands(view, FeedResponse(view.mount, first));
  }
}

=== FILE: text.dfy ===
/**
 * The string primitives the settings loader and the history view use:
 * Python's `str.isspace`, `str.strip()`, `str.split(sep)` and `sep.join`,
 * and ASCII case mapping for `str.lower()` / `String.prototype.toUpperCase`.
 */
module Text {

  /** Python's `str.isspace` for one character (Unicode White_Space, as CPython classifies it). */
  predicate IsSpace(c: char)
  {
    var n := c as int;
    || (0x09 <= n <= 0x0D)
    || (0x1C <= n <= 0x20)
    || n == 0x85
    || n == 0xA0
    || n == 0x1680
    || (0x2000 <= n <= 0x200A)
    || n == 0x2028
    || n == 0x2029
    || n == 0x202F
    || n == 0x205F
    || n == 0x3000
  }

  function LowerChar(c: char): char
  {
    if 'A' <= c <= 'Z' then (c as int + 32) as char else c
  }

  function UpperChar(c: char): char
  {
    if 'a' <= c <= 'z' then (c as int - 32) as char else c
  }

  /** `str.lower()`, restricted to ASCII letters. */
  function Lower(s: string): (r: string)
    ensures |r| == |s|
    ensures forall i :: 0 <= i < |s| ==> r[i] == LowerChar(s[i])
  {
    seq(|s|, i requires 0 <= i < |s| => LowerChar(s[i]))
  }

  /** Two strings that are equal once both are lower-cased, compared character by character. */
  predicate SameIgnoringCase(a: string, b: string)
  {
    |a| == |b| && forall i :: 0 <= i < |a| ==> LowerChar(a[i]) == LowerChar(b[i])
  }

  lemma {:induction false} LowerEqualsIffSameIgnoringCase(a: string, b: string)
    ensures Lower(a) == Lower(b) <==> SameIgnoringCase(a, b)
  {
    if SameIgnoringCase(a, b) {
      assert forall i :: 0 <= i < |a| ==> Lower(a)[i] == Lower(b)[i];
    }
    if Lower(a) == Lower(b) {
      assert forall i :: 0 <= i < |a| ==> LowerChar(a[i]) == Lower(a)[i] == Lower(b)[i] == LowerChar(b[i]);
    }
  }

  // ---------------------------------------------------------------- split / join

  /**
   * Python's `s.split(sep)` for a one-character separator: the pieces between
   * separators, empty pieces included, so `""` gives `[""]` and `"a,,b"` gives
   * `["a", "", "b"]`.
   */
  function Split(s: string, sep: char): (parts: seq<string>)
    ensures |parts| >= 1
    ensures forall i :: 0 <= i < |parts| ==> sep !in parts[i]
    decreases |s|
  {
    if |s| == 0 then [""]
    else
      var rest := Split(s[1..], sep);
      if s[0] == sep then [""] + rest
      else [[s[0]] + rest[0]] + rest[1..]
  }

  /** Python's `sep.join(parts)`. */
  function Join(parts: seq<string>, sep: char): string
  {
    if |parts| == 0 then ""
    else if |parts| == 1 then parts[0]
    else parts[0] + [sep] + Join(parts[1..], sep)
  }

  lemma JoinPrepend(c: char, parts: seq<string>, sep: char)
    requires |parts| >= 1
    ensures Join([[c] + parts[0]] + parts[1..], sep) == [c] + Join(parts, sep)
  {
    var q := [[c] + parts[0]] + parts[1..];
    assert q[1..] == parts[1..];
  }

  /** Joining the pieces with the separator gives back the original string. */
  lemma {:induction false} JoinSplit(s: string, sep: char)
    ensures Join(Split(s, sep), sep) == s
    decreases |s|
  {
    if |s| > 0 {
      JoinSplit(s[1..], sep);
      var rest := Split(s[1..], sep);
      if s[0] == sep {
        assert ([""] + rest)[1..] == rest;
        assert s == [s[0]] + s[1..];
      } else {
        JoinPrepend(s[0], rest, sep);
        assert s == [s[0]] + s[1..];
      }
    }
  }

  lemma {:induction false} SplitWithoutSeparator(p: string, sep: char)
    requires sep !in p
    ensures Split(p, sep) == [p]
    decreases |p|
  {
    if |p| > 0 {
      assert sep !in p[1..];
      SplitWithoutSeparator(p[1..], sep);
      assert [p[0]] + p[1..] == p;
    }
  }

  /** One step of `Split`: a leading separator starts a new piece, any other character joins the first. */
  lemma SplitCons(c: char, t: string, sep: char)
    ensures Split([c] + t, sep)
            == if c == sep then [""] + Split(t, sep) else [[c] + Split(t, sep)[0]] + Split(t, sep)[1..]
  {
    assert ([c] + t)[1..] == t;
  }

  /** A separator splits cleanly: the pieces of each side, side by side. */
  lemma {:induction false} SplitAppend(a: string, b: string, sep: char)
    ensures Split(a + [sep] + b, sep) == Split(a, sep) + Split(b, sep)
    decreases |a|
  {
    if |a| == 0 {
      assert a + [sep] + b == [sep] + b;
      SplitCons(sep, b, sep);
    } else {
      var t := a[1..];
      assert a == [a[0]] + t;
      assert a + [sep] + b == [a[0]] + (t + [sep] + b);
      SplitAppend(t, b, sep);
      SplitCons(a[0], t, sep);
      SplitCons(a[0], t + [sep] + b, sep);
    }
  }

  lemma {:induction false} SplitAfterPiece(p: string, t: string, sep: char)
    requires sep !in p
    ensures Split(p + [sep] + t, sep) == [p] + Split(t, sep)
    decreases |p|
  {
    var s := p + [sep] + t;
    if |p| == 0 {
      assert s == [sep] + t;
      assert s[1..] == t;
    } else {
      assert s[1..] == p[1..] + [sep] + t;
      assert sep !in p[1..];
      SplitAfterPiece(p[1..], t, sep);
      assert [p[0]] + p[1..] == p;
    }
  }

  /** Splitting a join of separator-free pieces gives back exactly those pieces. */
  lemma {:induction false} SplitJoin(parts: seq<string>, sep: char)
    requires |parts| >= 1
    requires forall i :: 0 <= i < |parts| ==> sep !in parts[i]
    ensures Split(Join(parts, sep), sep) == parts
    decreases |parts|
  {
    if |parts| == 1 {
      SplitWithoutSeparator(parts[0], sep);
    } else {
      SplitJoin(parts[1..], sep);
      SplitAfterPiece(parts[0], Join(parts[1..], sep), sep);
      assert [parts[0]] + parts[1..] == parts;
    }
  }

  // ---------------------------------------------------------------- strip

  /** The number of whitespace characters `s` starts with. */
  function LeadingSpaces(s: string): (n: nat)
    ensures n <= |s|
    ensures forall k :: 0 <= k < n ==> IsSpace(s[k])
    ensures n < |s| ==> !IsSpace(s[n])
    decreases |s|
  {
    if |s| > 0 && IsSpace(s[0]) then 1 + LeadingSpaces(s[1..]) else 0
  }

  /** The number of whitespace characters `s` ends with. */
  function TrailingSpaces(s: string): (n: nat)
    ensures n <= |s|
    ensures forall k :: |s| - n <= k < |s| ==> IsSpace(s[k])
    ensures n < |s| ==> !IsSpace(s[|s| - n - 1])
    decreases |s|
  {
    if |s| > 0 && IsSpace(s[|s| - 1]) then 1 + TrailingSpaces(s[..|s| - 1]) else 0
  }

  /** Neither starts nor ends with whitespace. */
  predicate IsStripped(s: string)
  {
    |s| == 0 || (!IsSpace(s[0]) && !IsSpace(s[|s| - 1]))
  }

  /**
   * Python's `s.strip()`: the infix of `s` left after removing the longest
   * whitespace prefix and the longest whitespace suffix.
   */
  function Strip(s: string): (r: string)
    ensures IsStripped(r)
    ensures LeadingSpaces(s) + |r| <= |s|
    ensures r == s[LeadingSpaces(s)..LeadingSpaces(s) + |r|]
    ensures forall k :: LeadingSpaces(s) + |r| <= k < |s| ==> IsSpace(s[k])
    ensures r == "" <==> forall k :: 0 <= k < |s| ==> IsSpace(s[k])
  {
    var t := s[LeadingSpaces(s)..];
    t[..|t| - TrailingSpaces(t)]
  }

  /** A string that already is stripped is left as it is; in particular strip is idempotent. */
  lemma StripStripped(s: string)
    requires IsStripped(s)
    ensures Strip(s) == s
  {
    if |s| > 0 {
      assert LeadingSpaces(s) == 0;
      assert TrailingSpaces(s) == 0;
    }
  }

  lemma StripIdempotent(s: string)
    ensures Strip(Strip(s)) == Strip(s)
  {
    StripStripped(Strip(s));
  }
}

=== FILE: upload.dfy ===
/**
 * The capture/save controller: pick a photo, have it analysed, and save the
 * estimate as a meal. Each handler is a pure transition on the component's
 * state record; each remote call is an outcome parameter. The asynchronous
 * handlers are split at their first `await` into a `Begin…` step (what is sent,
 * the in-flight state) and a `Settle…` step (the state after the response).
 */
module Upload {

  import opened Maybe
  import opened JsValue

  /** A File the user picked; the controller never looks inside it. */
  datatype FileRef = FileRef(id: nat)

  datatype UploadState = UploadState(
    file: Option<FileRef>,
    analyzing: bool,
    result: Json,
    saving: bool,
    mealType: string,
    selectedDate: string)

  /** The state on mount; `today` stands for the current UTC date (`toISOString` is in UTC). */
  function Mount(today: string): (r: UploadState)
    ensures AtRest(r) && PhaseOf(r) == Idle
    ensures r.selectedDate == today && r.mealType == "breakfast"
  {
    UploadState(None, false, Null, false, "breakfast", today)
  }

  // ---------------------------------------------------------------- local inputs

  /**
   * The file input changed. `picked` is `files[0]`, which is undefined (None)
   * when the picker was dismissed. The previous analysis is dropped either way.
   */
  function SelectFile(s: UploadState, picked: Option<FileRef>): (r: UploadState)
    ensures r.file == picked && r.result == Null
    ensures r.(file := s.file, result := s.result) == s
  {
    s.(file := picked, result := Null)
  }

  /** The date input changed: only the date moves, so the phase is kept. */
  function SelectDate(s: UploadState, date: string): (r: UploadState)
    ensures r.selectedDate == date && r.(selectedDate := s.selectedDate) == s
    ensures PhaseOf(r) == PhaseOf(s)
  {
    s.(selectedDate := date)
  }

  /** The meal type select changed: only the meal type moves, so the phase is kept. */
  function SelectMealType(s: UploadState, mealType: string): (r: UploadState)
    ensures r.mealType == mealType && r.(mealType := s.mealType) == s
    ensures PhaseOf(r) == PhaseOf(s)
  {
    s.(mealType := mealType)
  }

  // ---------------------------------------------------------------- analyze

  datatype AnalyzeStart = NotStarted | Started(sent: FileRef, inFlight: UploadState)

  /** handleAnalyze up to its `await`: nothing at all happens without a file. */
  function BeginAnalyze(s: UploadState): (r: AnalyzeStart)
    ensures r.NotStarted? <==> s.file.None?
    ensures r.Started? ==> Some(r.sent) == s.file && r.inFlight.analyzing
    ensures r.Started? ==> r.inFlight.(analyzing := s.analyzing) == s
  {
    match s.file
    case None => NotStarted
    case Some(f) => Started(f, s.(analyzing := true))
  }

  /** handleAnalyze after its `await`: any parsed body becomes the result; a failure keeps the old one. */
  function SettleAnalyze(s: UploadState, outcome: Reply): (r: UploadState)
    ensures !r.analyzing
    ensures outcome.Parsed? ==> r.result == outcome.data
    ensures outcome.Failed? ==> r.result == s.result
    ensures r.file == s.file && r.saving == s.saving
    ensures r.mealType == s.mealType && r.selectedDate == s.selectedDate
  {
    var s' := s.(analyzing := false);
    match outcome
    case Parsed(data) => s'.(result := data)
    case Failed => s'
  }

  /**
   * A whole analysis run with no other event in between: without a file
   * nothing happens; with one, a parsed body becomes the result, a failure
   * keeps the old one, and the run ends with `analyzing` false.
   */
  function Analyze(s: UploadState, outcome: Reply): (r: UploadState)
    ensures s.file.None? ==> r == s
    ensures s.file.Some? ==> !r.analyzing && r.file == s.file && r.saving == s.saving
    ensures s.file.Some? && outcome.Parsed? ==> r.result == outcome.data
    ensures s.file.Some? && outcome.Failed? ==> r.result == s.result
    ensures r.mealType == s.mealType && r.selectedDate == s.selectedDate
  {
    match BeginAnalyze(s)
    case NotStarted => s
    case Started(_, inFlight) => SettleAnalyze(inFlight, outcome)
  }

  // ---------------------------------------------------------------- save

  /** The analysis fields a save request copies. `confidence` is not among them. */
  const EstimateFields: set<string> := {"food", "calories", "protein", "carbs", "fat"}

  /** A JSON request body, as an object's fields; key order is not modelled. */
  type Body = map<string, Json>

  /**
   * The body handleSaveMeal posts: the chosen date and meal type, plus each
   * analysis field as the result holds it. `JSON.stringify` drops a property
   * whose value is undefined, so a field the result lacks is left out.
   */
  function RequestBody(date: string, mealType: string, result: Json): (body: Body)
    requires result != Null
    ensures "date" in body && body["date"] == Str(date)
    ensures "meal_type" in body && body["meal_type"] == Str(mealType)
    ensures forall k :: k in body <==> k == "date" || k == "meal_type" || (k in EstimateFields && Prop(result, k).Some?)
    ensures forall k :: k in EstimateFields && k in body ==> Some(body[k]) == Prop(result, k)
  {
    var copied := map k | k in EstimateFields && Prop(result, k).Some? :: Prop(result, k).value;
    map["date" := Str(date), "meal_type" := Str(mealType)] + copied
  }

  /** Reading the analysis fields back from the body gives exactly the result's; nothing else leaks in. */
  lemma RequestBodyCopiesEstimate(date: string, mealType: string, result: Json)
    requires result != Null
    ensures var sent := Obj(RequestBody(date, mealType, result));
      && (forall k :: k in EstimateFields ==> Prop(sent, k) == Prop(result, k))
      && Prop(sent, "confidence") == None
      && Prop(sent, "date") == Some(Str(date))
      && Prop(sent, "meal_type") == Some(Str(mealType))
  {
  }

  /** OK status, another status, or a rejected `fetch`. */
  datatype SaveOutcome = Ok | NotOk | Threw

  datatype SaveStart = NotSent | Sent(body: Body, inFlight: UploadState)

  /** handleSaveMeal up to its `await`: nothing is sent unless the result is truthy. */
  function BeginSave(s: UploadState): (r: SaveStart)
    ensures r.NotSent? <==> !Truthy(s.result)
    ensures r.Sent? ==> r.inFlight.saving && r.inFlight.(saving := s.saving) == s
    ensures r.Sent? ==> r.body == RequestBody(s.selectedDate, s.mealType, s.result)
  {
    if Truthy(s.result) then Sent(RequestBody(s.selectedDate, s.mealType, s.result), s.(saving := true))
    else NotSent
  }

  /** A state together with how many times `onMealSaved` was called on the way to it. */
  datatype Settled = Settled(state: UploadState, notified: nat)

  /**
   * handleSaveMeal after its `await`. `hasCallback` says whether the parent
   * passed `onMealSaved`.
   */
  function SettleSave(s: UploadState, outcome: SaveOutcome, hasCallback: bool): (r: Settled)
    ensures !r.state.saving
    ensures r.state.mealType == s.mealType && r.state.selectedDate == s.selectedDate
    ensures r.state.analyzing == s.analyzing
    ensures outcome.Ok? ==> r.state.file.None? && r.state.result == Null
    ensures outcome.Ok? ==> r.notified == (if hasCallback then 1 else 0)
    ensures !outcome.Ok? ==> r.state.file == s.file && r.state.result == s.result && r.notified == 0
  {
    var s' := s.(saving := false);
    if outcome.Ok? then Settled(s'.(file := None, result := Null), if hasCallback then 1 else 0)
    else Settled(s', 0)
  }

  /**
   * A whole save run with no other event in between: nothing happens without
   * a truthy result; an OK save clears file and result and notifies once when
   * the callback exists; any other outcome keeps both and notifies never.
   */
  function Save(s: UploadState, outcome: SaveOutcome, hasCallback: bool): (r: Settled)
    ensures !Truthy(s.result) ==> r == Settled(s, 0)
    ensures Truthy(s.result) && outcome.Ok? ==>
              r.state == s.(saving := false, file := None, result := Null) && r.notified == (if hasCallback then 1 else 0)
    ensures Truthy(s.result) && !outcome.Ok? ==> r == Settled(s.(saving := false), 0)
  {
    match BeginSave(s)
    case NotSent => Settled(s, 0)
    case Sent(_, inFlight) => SettleSave(inFlight, outcome, hasCallback)
  }

  /** A save succeeds when something was sent and the response was OK. */
  predicate SaveSucceeds(s: UploadState, outcome: SaveOutcome)
  {
    Truthy(s.result) && outcome.Ok?
  }

  // ---------------------------------------------------------------- events

  datatype Event =
    | PickFile(picked: Option<FileRef>)
    | PickDate(date: string)
    | PickMealType(mealType: string)
    | AnalyzeClicked(analysis: Reply)
    | SaveClicked(save: SaveOutcome)

  /** One user event, with each remote call running to completion before the next event. */
  function Step(s: UploadState, e: Event, hasCallback: bool): (r: Settled)
    ensures r.notified <= 1
    ensures r.notified == 1 <==> e.SaveClicked? && SaveSucceeds(s, e.save) && hasCallback
    ensures r.state.mealType == s.mealType || e.PickMealType?
    ensures r.state.selectedDate == s.selectedDate || e.PickDate?
  {
    match e
    case PickFile(picked) => Settled(SelectFile(s, picked), 0)
    case PickDate(date) => Settled(SelectDate(s, date), 0)
    case PickMealType(mealType) => Settled(SelectMealType(s, mealType), 0)
    case AnalyzeClicked(outcome) => Settled(Analyze(s, outcome), 0)
    case SaveClicked(outcome) => Save(s, outcome, hasCallback)
  }

  /**
   * Between events nothing is in flight, and a result never outlives its
   * file. This holds when each request completes before the next event, as
   * `Step` assumes; the file input stays enabled during an analysis, so a
   * picker dismissed meanwhile breaks it (`DismissedPickerKeepsLateAnalysis`).
   */
  predicate AtRest(s: UploadState)
  {
    !s.analyzing && !s.saving && (s.file.None? ==> s.result == Null)
  }

  /** With each request completing before the next event, every event keeps the controller at rest. */
  lemma StepKeepsAtRest(s: UploadState, e: Event, hasCallback: bool)
    requires AtRest(s)
    ensures AtRest(Step(s, e, hasCallback).state)
  {
  }

  function Replay(s: UploadState, events: seq<Event>, hasCallback: bool): Settled
    decreases |events|
  {
    if |events| == 0 then Settled(s, 0)
    else
      var first := Step(s, events[0], hasCallback);
      var rest := Replay(first.state, events[1..], hasCallback);
      Settled(rest.state, first.notified + rest.notified)
  }

  /** Every state reachable by whole events is at rest, each request completing before the next event. */
  lemma {:induction false} ReplayKeepsAtRest(s: UploadState, events: seq<Event>, hasCallback: bool)
    requires AtRest(s)
    ensures AtRest(Replay(s, events, hasCallback).state)
    decreases |events|
  {
    if |events| > 0 {
      StepKeepsAtRest(s, events[0], hasCallback);
      ReplayKeepsAtRest(Step(s, events[0], hasCallback).state, events[1..], hasCallback);
    }
  }

  /** Without the callback no notification is ever made, whatever happens. */
  lemma {:induction false} NoCallbackNoNotice(s: UploadState, events: seq<Event>)
    ensures Replay(s, events, false).notified == 0
    decreases |events|
  {
    if |events| > 0 {
      NoCallbackNoNotice(Step(s, events[0], false).state, events[1..]);
    }
  }

  // ---------------------------------------------------------------- phases

  /** The controller's phases: nothing picked, a file picked, an analysis out, an estimate shown, a save out. */
  datatype Phase = Idle | FileSelected | Analyzing | Analyzed | Saving

  function PhaseOf(s: UploadState): Phase
  {
    if s.saving then Saving
    else if s.analyzing then Analyzing
    else if Truthy(s.result) then Analyzed
    else if s.file.Some? then FileSelected
    else Idle
  }

  /**
   * The phase machine the handlers implement, written on phases alone.
   * Picking a file leads to `FileSelected` (or `Idle` when the picker is
   * dismissed); an analysis needs a file, keeps the phase when it fails,
   * and otherwise leads to `Analyzed` for a truthy body and to
   * `FileSelected` for a falsy one (`null`, `0`, `""`, `false`); it may
   * start again from `Analyzed`, where the file is still present. Only an
   * OK save of a shown estimate returns to `Idle`.
   */
  function NextPhase(p: Phase, e: Event): Phase
    requires p in {Idle, FileSelected, Analyzed}
  {
    match e
    case PickFile(picked) => if picked.Some? then FileSelected else Idle
    case PickDate(_) => p
    case PickMealType(_) => p
    case AnalyzeClicked(outcome) =>
      if p == Idle then Idle
      else if outcome.Failed? then p
      else if Truthy(outcome.data) then Analyzed
      else FileSelected
    case SaveClicked(outcome) =>
      if p == Analyzed && outcome.Ok? then Idle else p
  }

  /** Every event moves an at-rest controller exactly as the phase machine says. */
  lemma StepFollowsPhaseMachine(s: UploadState, e: Event, hasCallback: bool)
    requires AtRest(s)
    ensures PhaseOf(s) in {Idle, FileSelected, Analyzed}
    ensures PhaseOf(Step(s, e, hasCallback).state) == NextPhase(PhaseOf(s), e)
  {
  }

  /** While a request is out, the controller is in the matching in-flight phase. */
  lemma InFlightPhases(s: UploadState)
    requires AtRest(s)
    ensures BeginAnalyze(s).Started? ==> PhaseOf(BeginAnalyze(s).inFlight) == Analyzing
    ensures BeginSave(s).Sent? ==> PhaseOf(BeginSave(s).inFlight) == Saving
  {
  }

  /**
   * Nothing discards a late analysis: if another file is picked while a
   * request is out, the old file's analysis lands next to the new file.
   */
  lemma LateAnalysisLandsOnNewFile(s: UploadState, other: FileRef, data: Json)
    requires BeginAnalyze(s).Started?
    ensures var t := SettleAnalyze(SelectFile(BeginAnalyze(s).inFlight, Some(other)), Parsed(data));
      t.file == Some(other) && t.result == data
  {
  }

  /**
   * The same holds when the picker is dismissed while the request is out:
   * the analysis then lands with no file at all, and a non-null one leaves
   * the controller out of its at-rest shape.
   */
  lemma DismissedPickerKeepsLateAnalysis(s: UploadState, data: Json)
    requires BeginAnalyze(s).Started?
    ensures var t := SettleAnalyze(SelectFile(BeginAnalyze(s).inFlight, None), Parsed(data));
      t.file == None && t.result == data && (data != Null ==> !AtRest(t))
  {
  }

  /** The analysis estimate of the end-to-end path below. */
  const GrilledChicken: Json := Obj(map[
    "food" := Str("Grilled Chicken"), "calories" := Num(320.0), "protein" := Num(40.0),
    "carbs" := Num(2.0), "fat" := Num(14.0), "confidence" := Num(0.87)])

  /** The body posted for that estimate: the five fields and the choices, and no `confidence`. */
  lemma GrilledChickenBody()
    ensures RequestBody("2024-03-01", "lunch", GrilledChicken) == map[
      "date" := Str("2024-03-01"), "meal_type" := Str("lunch"),
      "food" := Str("Grilled Chicken"), "calories" := Num(320.0), "protein" := Num(40.0),
      "carbs" := Num(2.0), "fat" := Num(14.0)]
  {
    var body := RequestBody("2024-03-01", "lunch", GrilledChicken);
    var expected := map["date" := Str("2024-03-01"), "meal_type" := Str("lunch"),
      "food" := Str("Grilled Chicken"), "calories" := Num(320.0), "protein" := Num(40.0),
      "carbs" := Num(2.0), "fat" := Num(14.0)];
    assert body.Keys == expected.Keys;
  }

  /** The end-to-end path: pick, analyse, choose date and type, save. */
  lemma CaptureAndSave(today: string, f: FileRef)
    ensures
      var ready := SelectMealType(SelectDate(Analyze(SelectFile(Mount(today), Some(f)), Parsed(GrilledChicken)), "2024-03-01"), "lunch");
      && BeginSave(ready) == Sent(RequestBody("2024-03-01", "lunch", GrilledChicken), ready.(saving := true))
      && Save(ready, Ok, true) == Settled(Mount(today).(selectedDate := "2024-03-01", mealType := "lunch"), 1)
  {
    var picked := SelectFile(Mount(today), Some(f));
    var analysed := Analyze(picked, Parsed(GrilledChicken));
    assert analysed == picked.(result := GrilledChicken);
    var ready := SelectMealType(SelectDate(analysed, "2024-03-01"), "lunch");
    assert ready == Mount(today).(file := Some(f), result := GrilledChicken, selectedDate := "2024-03-01", mealType := "lunch");
    assert Truthy(ready.result);
  }
}
